=== FILE: README.md ===
# Rhythm game core, modelled in Dafny

A model of the game-state core of a small single-player rhythm game
(`rhythmgame.py`). Notes fall down three lanes towards a judgement line;
the player clicks them, and the vertical distance of the clicked note to the
line decides the judgement tier (PERFECT, GREAT, GOOD, OK), the score and
the combo. A session runs for thirty seconds: MENU, then PLAYING, then
GAME_OVER, then back to MENU.

The game object becomes an immutable record (`State.Game`) and every
operation a pure function from record to record:

- `options.dfy` holds an `Option` type.
- `config.dfy` holds the constants and the judgement tier table.
- `notes.dfy` holds the note entity: creation, falling, and the circle test.
- `state.dfy` holds the game record, its invariant, and the statistics reset.
- `schedule.dfy` holds the demo beat list and the stand-in beat analysis.
- `judging.dfy` holds the click judgement (`check_hit`).
- `timing.dfy` holds the remaining time and the session time limit.
- `simulation.dfy` holds one playing tick (`update`): the spawn, the fall and the miss sweep.
- `session.dfy` holds the event handling, starting a session, and one frame of the main loop.
- `properties.dfy` holds whole-session properties and end-to-end scenarios.

Modelling choices:

- Clock readings are integer milliseconds passed in as `nowMs`. The source
  compares `(now - start) / 1000.0 >= 30`. Here that is
  `now - start >= 30000`, which agrees for integer millisecond clocks.
- Remaining time is kept in milliseconds rather than float seconds.
- Beat times are `real`. The source's values `i * 0.5` and `i * 0.25` are exact in binary
  floating point, so this loses nothing.
- The spawn test compares the clock against the next beat time minus a float fall
  time. It is an input, `due`.
- Whether the track is still playing (`musicBusy`) is an input.
  Whether a track file exists (`trackFound`) is also an input.
- Every note is created with radius 40, and the radius never changes. It is the constant
  `NoteRadius` rather than a field.
- `math.hypot(dx, dy) < 40` is compared on squares: `dx*dx + dy*dy < 40*40`.
  This is exact for integer coordinates.
- A note's colour is its index into the 4-colour palette.
- `notes.remove(note)` removes the judged object by identity. It is modelled as removal at
  the judged index.

Behaviour of the code worth noting:

- Returning from GAME_OVER to MENU (rhythmgame.py:105-107) changes only the screen.
  The statistics are cleared only when a new session starts.
- The tier table (rhythmgame.py:21-26) is never validated. It is a constant, and
  `Config.JudgementsAscending` proves that it is in ascending order.
- A note's height is always `-60 + 9k`, so no note ever sits exactly on the line.
  The closest a note comes is 3 pixels below it, which is still a PERFECT hit
  (`Properties.PerfectFirstHit`).

## Model

| member | source | states |
|---|---|---|
| Config.JudgementsAscending | rhythmgame.py:21-26 | the tier table is non-empty with strictly ascending thresholds, so sorting leaves it unchanged |
| Config.MissLimitY | rhythmgame.py:128 | the miss limit is y = 530, the line plus the worst threshold, below every tier's reach |
| Config.WorstThreshold | rhythmgame.py:21-26 | the last threshold (80) is at least every threshold of the table |
| Notes.NewNote | rhythmgame.py:30-31 | a new note keeps its lane and colour and starts at height -60, above the screen |
| Notes.Advance | rhythmgame.py:33-34 | one tick moves a note down by exactly 9 and changes nothing else |
| Notes.AdvanceByPosition | rhythmgame.py:33-34 | k ticks move a note down by exactly 9k |
| Notes.ContainsBounds | rhythmgame.py:195-197 | a click inside a note's circle is less than 40 pixels off its centre on each axis, and one less than 28 off on both axes is always inside |
| Notes.LineDistance | rhythmgame.py:199 | the distance is the absolute vertical offset from the line at y = 450 |
| Notes.SpawnedNoteNeverOnLine | rhythmgame.py:28-34 | a spawned note is never exactly on the judgement line; it is always at least 3 pixels off it |
| Notes.PerfectWindow | rhythmgame.py:21-34 | a spawned note is in the PERFECT window exactly on ticks 55 to 58 after creation |
| Notes.NoteLifetime | rhythmgame.py:125-132 | a spawned note survives the miss sweep exactly through tick 65 |
| State.ResetStats | rhythmgame.py:53-57 | resetting clears score, combos, notes, schedule, cursor and start times and keeps the screen |
| State.Initial | rhythmgame.py:50-51 | a new game is on the menu with cleared statistics and satisfies the invariant |
| Schedule.BeatsIncreasing | rhythmgame.py:224 | a fixed-interval schedule with a positive interval is strictly increasing |
| Schedule.DemoBeats | rhythmgame.py:224 | the demo schedule has 60 beats at i times 0.5 seconds: it starts at 0 and is strictly increasing |
| Schedule.AnalyzeBeats | rhythmgame.py:238-241 | the beat analysis yields 120 beats at i times 0.25 seconds (240 BPM for 30 s), strictly increasing, and the 30 s duration |
| Judging.AwardedTier | rhythmgame.py:201-202 | the result is the first tier in table order whose threshold strictly exceeds the distance; none exactly when every threshold is at most the distance |
| Judging.NoTierIffBeyondWorst | rhythmgame.py:201-212 | in an ascending table, no tier is awarded iff the distance reaches the last threshold |
| Judging.TierByDistance | rhythmgame.py:199-202 | with the game's table, distance d below 80 earns tier d / 20 (19 is PERFECT, 20 is GREAT), and 80 or more earns none |
| Judging.FirstContaining | rhythmgame.py:194-198 | the result is the first note in list order whose circle strictly contains the click; none exactly when no circle contains it |
| Judging.Judge | rhythmgame.py:192-214 | no target iff no circle contains the click; a hit names the first containing note and its awarded tier; a miss names the first containing note at distance 80 or more |
| Judging.CheckHit | rhythmgame.py:191-214 | a click inside no circle changes nothing; only score, combos and notes ever change; the score never drops, at most one note is removed, and the best combo still bounds the combo |
| Judging.HitScoring | rhythmgame.py:199-207 | when the first containing note earns tier t, combo becomes old combo + 1, best combo becomes the max of old best and new combo, score grows by tier score + 10 times new combo, and exactly that note is removed with the others in order |
| Judging.InCircleMiss | rhythmgame.py:209-212 | when the first containing note is 80 or more from the line, combo becomes 0 and score, best combo and notes are unchanged |
| Judging.OverlapTieBreak | rhythmgame.py:194-207 | among overlapping notes, the judged one is no later than the first containing one, and a later containing note survives unchanged |
| Judging.ClosestNoteNotPreferred | rhythmgame.py:194-207 | the first four beats of a track session spawn on consecutive ticks, so notes 0 and 3 overlap in one lane; with any later notes after them, a click nearer note 3 is judged against note 0 (PERFECT, 310 points) and all other notes stay in order |
| Timing.RemainingMs | rhythmgame.py:79-85 | remaining time is never negative; it is the full limit without a start time; it reaches 0 exactly when the session has timed out |
| Timing.CheckTimeLimit | rhythmgame.py:70-77 | the screen becomes GAME_OVER iff a start time is recorded and at least 30000 ms have elapsed; nothing else changes |
| Simulation.LaneX | rhythmgame.py:121 | the lane of beat i is 250 + 150 (i mod 3), so one of 250, 400, 550 |
| Simulation.Spawn | rhythmgame.py:117-123 | a note is appended iff the beat is due and the schedule is not exhausted; it is at height -60 in lane i mod 3 with colour i mod 4; earlier notes stay; the cursor rises by one and never passes the schedule's end |
| Simulation.AdvanceAll | rhythmgame.py:126-127 | every note falls one tick, in place |
| Simulation.KeepOnTime | rhythmgame.py:132 | the kept notes are exactly the notes not past y = 530; nothing is lost iff all are in play |
| Simulation.KeepOnTimeAppend | rhythmgame.py:132 | filtering distributes over concatenation, so kept notes stay in their original order |
| Simulation.Sweep | rhythmgame.py:125-132 | every note falls by 9; the list becomes the fallen notes with y at most 530 in order; combo becomes 0 iff a note was dropped and is unchanged otherwise; nothing else changes |
| Simulation.Update | rhythmgame.py:109-132 | with no music playing (always so in a demo session) and no time left, the tick ends the session with nothing else changed; otherwise the result is exactly the spawn followed by the sweep; score and best combo never change and the invariant is kept |
| Session.StartGame | rhythmgame.py:216-228 | starting clears the statistics, installs the 60 demo beats or the 120 analysed beats with a 30 s duration, records both start times and goes to PLAYING |
| Session.HandleEvent | rhythmgame.py:92-107 | SPACE in MENU starts a demo; M in MENU starts with a track iff one exists; SPACE in GAME_OVER returns to MENU; clicks are judged only in PLAYING; everything else is ignored; the score drops only by starting a new session |
| Session.HandleEvents | rhythmgame.py:88-107 | a frame's events keep the invariant; a playing session stays playing with the same start time and its score and best combo never drop, whatever the events; without key presses the score never drops and the screen and start time stay in any phase, and outside PLAYING the state is left entirely unchanged |
| Session.Frame | rhythmgame.py:61-65 | one frame keeps the invariant; a frame that starts while playing never lowers the score or best combo; a playing session ends iff it has timed out, and otherwise stays playing; without key presses the score never drops, and a MENU or GAME_OVER frame without key presses changes nothing (screen, score and best combo included) |
| Session.Run | rhythmgame.py:59-68 | every state reached by frames from a valid state has best combo at least combo and cursor within the schedule |
| Properties.QuietFrame | rhythmgame.py:70-77 | an event-free frame keeps a scoreless session scoreless and ends it once its clock passes the limit |
| Properties.QuietRunEnds | rhythmgame.py:70-77 | event-free frames whose last clock reading is past the limit end the session with no score |
| Properties.DemoSessionWithoutClicks | rhythmgame.py:61-65 | a demo session started by Space in a frame that also runs its update and time check, then left untouched past 30 s, is GAME_OVER with score, combo and best combo 0 |
| Properties.PerfectFirstHit | rhythmgame.py:199-207 | with the first two demo notes on screen and any later notes after them, clicking the centre of the first, 57 ticks after it spawned, hits 3 pixels off the line for PERFECT: 310 points, combo 1; all other notes stay in order |

## Left out

- Rendering is not modelled: `draw`, `draw_game_over_screen`, `draw_text`, `draw_text_colored`, `Note.draw`, fonts and the display. It has no effect on game state.
- Audio is not modelled: loading, playing and stopping the track. Whether the track is still playing is an input to `Simulation.Update`.
- `find_music_files` lists the working directory. It is replaced by the input `trackFound`.
- Clock reads (`pygame.time.get_ticks`) and the frame limiter (`clock.tick`) are not modelled. The clock is an integer millisecond input.
- Each frame uses a single clock reading, `nowMs`. The Python code reads the clock separately at each use, so its two start times, `update` and `check_time_limit` can see values a few milliseconds apart within one frame.
- The float fall time and the beat-due comparison are not modelled. "Due" is a boolean input to `Simulation.Spawn`.
- The main loop's running flag is not modelled, and neither are the quit and Escape events that clear it. These events leave the game state untouched in the model.
- The tier colours and the concrete RGB values of the note palette are not modelled. They are display data.
- The "miss" message printed on an in-circle miss is not modelled. It is console output only.

=== FILE: config.dfy ===
/** Fixed configuration of the rhythm game: screen geometry, note motion,
    the session length and the judgement tier table. */
module Config {

  const ScreenWidth: int := 800
  const ScreenHeight: int := 600
  const Fps: int := 60

  /** Pixels a note falls in one tick. */
  const NoteSpeed: int := 9

  /** Vertical position of the judgement line. */
  const JudgementLineY: int := 450

  /** Length of a session in seconds, and the same in milliseconds: elapsed
      time is an integer number of milliseconds in this model. */
  const GameTimeLimitSec: int := 30
  const GameTimeLimitMs: int := GameTimeLimitSec * 1000

  /** Every note starts just above the top of the screen with this radius. */
  const NoteSpawnY: int := -60
  const NoteRadius: int := 40

  /** Notes carry an index into a palette of this many colours. */
  const NoteColorCount: nat := 4

  /** Horizontal distance between the three lanes. */
  const LaneSpacing: int := 150

  /** One judgement tier: a note whose distance to the judgement line is
      strictly below `threshold` may be awarded `score`. The tier's display
      colour is not modelled. */
  datatype Tier = Tier(threshold: int, name: string, score: nat)

  /** The tier table in ascending threshold order (the order sorting by
      threshold produces; see `JudgementsAscending`). */
  const Judgements: seq<Tier> := [
    Tier(20, "PERFECT", 300),
    Tier(40, "GREAT", 200),
    Tier(60, "GOOD", 100),
    Tier(80, "OK", 50)
  ]

  predicate Ascending(table: seq<Tier>) {
    forall i, j :: 0 <= i < j < |table| ==> table[i].threshold < table[j].threshold
  }

  /** The tier table is non-empty and strictly ascending, so sorting it is
      the identity and its last entry holds the worst threshold. */
  lemma JudgementsAscending()
    ensures |Judgements| > 0 && Ascending(Judgements)
  {}

  /** The last (worst) threshold of the table: it bounds every other one. */
  function WorstThreshold(): (t: int)
    ensures forall i :: 0 <= i < |Judgements| ==> Judgements[i].threshold <= t
    ensures t in set i | 0 <= i < |Judgements| :: Judgements[i].threshold
  {
    Judgements[|Judgements| - 1].threshold
  }

  /** A note further down the screen than this has been missed for good. */
  function MissLimitY(): (m: int)
    ensures forall i :: 0 <= i < |Judgements| ==> JudgementLineY + Judgements[i].threshold <= m
    ensures m - JudgementLineY == WorstThreshold() && m == 530
  {
    JudgementLineY + WorstThreshold()
  }
}

=== FILE: judging.dfy ===
/** Judging a mouse click against the falling notes. */
module Judging {

  import opened Options
  import opened Config
  import opened Notes
  import opened State
  import Schedule

  /** Tier `t` is the one awarded at line distance `d`: the first tier, in
      table order, whose threshold strictly exceeds `d`. */
  predicate IsAwarded(table: seq<Tier>, d: int, t: int) {
    && 0 <= t < |table|
    && d < table[t].threshold
    && forall u :: 0 <= u < t ==> table[u].threshold <= d
  }

  /** Note `i` is the one a click at `(px, py)` is judged against: the first
      note, in list order, whose circle contains the click. */
  predicate IsJudged(notes: seq<Note>, px: int, py: int, i: int) {
    && 0 <= i < |notes|
    && Contains(notes[i], px, py)
    && forall j :: 0 <= j < i ==> !Contains(notes[j], px, py)
  }

  predicate MissesAll(notes: seq<Note>, px: int, py: int) {
    forall j :: 0 <= j < |notes| ==> !Contains(notes[j], px, py)
  }

  /** At most one tier is awarded at any distance. */
  lemma AwardedUnique(table: seq<Tier>, d: int)
    ensures forall t, t' :: IsAwarded(table, d, t) && IsAwarded(table, d, t') ==> t == t'
  {}

  /** At most one note is judged for any click. */
  lemma JudgedUnique(notes: seq<Note>, px: int, py: int)
    ensures forall i, i' :: IsJudged(notes, px, py, i) && IsJudged(notes, px, py, i') ==> i == i'
  {}

  /** The scan over the tier table. */
  function AwardedTier(table: seq<Tier>, d: int): (r: Option<nat>)
    ensures r.Some? ==> IsAwarded(table, d, r.value)
    ensures r.None? <==> forall u :: 0 <= u < |table| ==> table[u].threshold <= d
  {
    if |table| == 0 then None
    else if d < table[0].threshold then Some(0)
    else match AwardedTier(table[1..], d)
      case None => None
      case Some(i) => Some(i + 1)
  }

  /** In an ascending table, no tier is awarded exactly when the distance
      reaches the last (worst) threshold. */
  lemma NoTierIffBeyondWorst(table: seq<Tier>, d: int)
    requires |table| > 0 && Ascending(table)
    ensures AwardedTier(table, d).None? <==> d >= table[|table| - 1].threshold
  {}

  /** With the game's table the awarded tier is a plain function of the
      distance: tiers are 20 pixels wide, and from 80 on nothing is awarded.
      In particular 19 is PERFECT, 20 is GREAT and 80 is no tier. */
  lemma TierByDistance(d: nat)
    ensures AwardedTier(Judgements, d) == if d < 80 then Some(d / 20) else None
  {
    var r := AwardedTier(Judgements, d);
    if d < 80 {
      assert IsAwarded(Judgements, d, d / 20);
      AwardedUnique(Judgements, d);
    }
  }

  /** The scan over the notes, in list order. */
  function FirstContaining(notes: seq<Note>, px: int, py: int): (r: Option<nat>)
    ensures r.Some? ==> IsJudged(notes, px, py, r.value)
    ensures r.None? <==> MissesAll(notes, px, py)
  {
    if |notes| == 0 then None
    else if Contains(notes[0], px, py) then Some(0)
    else match FirstContaining(notes[1..], px, py)
      case None => None
      case Some(i) => Some(i + 1)
  }

  /** What a click amounts to: a hit of note `index` awarding tier `tier`,
      a miss on note `index` (inside its circle but too far from the line),
      or no target at all. */
  datatype Judgement = Hit(index: nat, tier: nat) | Miss(index: nat) | NoTarget

  /** Judges a click at `(px, py)`. */
  function Judge(notes: seq<Note>, px: int, py: int): (j: Judgement)
    ensures j.NoTarget? <==> MissesAll(notes, px, py)
    ensures j.Hit? ==> IsJudged(notes, px, py, j.index)
                       && IsAwarded(Judgements, LineDistance(notes[j.index]), j.tier)
    ensures j.Miss? ==> IsJudged(notes, px, py, j.index)
                        && LineDistance(notes[j.index]) >= WorstThreshold()
  {
    match FirstContaining(notes, px, py)
    case None => NoTarget
    case Some(i) =>
      match AwardedTier(Judgements, LineDistance(notes[i]))
      case Some(t) => Hit(i, t)
      case None => Miss(i)
  }

  /** The effect of a click on the game. A click inside no note's circle
      changes nothing; otherwise only the score, the combos and the notes
      can change, the score does not drop, at most one note leaves, and the
      best combo still bounds the combo. `HitScoring` and `InCircleMiss`
      state the two judged cases. */
  function CheckHit(g: Game, px: int, py: int): (r: Game)
    ensures MissesAll(g.notes, px, py) ==> r == g
    ensures r == g.(score := r.score, combo := r.combo, maxCombo := r.maxCombo, notes := r.notes)
    ensures r.score >= g.score
    ensures |r.notes| == |g.notes| || |r.notes| == |g.notes| - 1
    ensures Valid(g) ==> Valid(r)
  {
    match Judge(g.notes, px, py)
    case NoTarget => g
    case Miss(_) => g.(combo := 0)
    case Hit(i, t) =>
      var combo := g.combo + 1;
      g.(combo := combo,
         maxCombo := Max(g.maxCombo, combo),
         score := g.score + Judgements[t].score + combo * 10,
         notes := g.notes[..i] + g.notes[i + 1..])
  }

  /** A hit, stated without reference to how notes and tiers are scanned:
      when note `i` is the first whose circle contains the click and tier
      `t` is the first whose threshold exceeds its distance to the line, the
      combo grows by one, the best combo follows it, the score grows by the
      tier's score plus ten times the new combo, and exactly note `i` leaves
      the list, the others keeping their order. Nothing else changes. */
  lemma HitScoring(g: Game, px: int, py: int, i: int, t: int)
    requires IsJudged(g.notes, px, py, i)
    requires IsAwarded(Judgements, LineDistance(g.notes[i]), t)
    ensures CheckHit(g, px, py) == g.(combo := g.combo + 1,
                                       maxCombo := Max(g.maxCombo, g.combo + 1),
                                       score := g.score + Judgements[t].score + (g.combo + 1) * 10,
                                       notes := g.notes[..i] + g.notes[i + 1..])
  {
    JudgedUnique(g.notes, px, py);
    AwardedUnique(Judgements, LineDistance(g.notes[i]));
  }

  /** An in-circle miss: when the first note whose circle contains the click
      is at least the worst threshold away from the line, the combo drops to
      zero and nothing else changes; the note stays. */
  lemma InCircleMiss(g: Game, px: int, py: int, i: int)
    requires IsJudged(g.notes, px, py, i)
    requires LineDistance(g.notes[i]) >= WorstThreshold()
    ensures CheckHit(g, px, py) == g.(combo := 0)
  {
    JudgedUnique(g.notes, px, py);
  }

  /** Overlapping notes resolve in list order: when notes `j < k` both
      contain the click, the judged note comes no later than `j`, and note
      `k` survives the click unchanged (one place earlier if a note before
      it was removed). */
  lemma OverlapTieBreak(g: Game, px: int, py: int, j: nat, k: nat)
    requires j < k < |g.notes|
    requires Contains(g.notes[j], px, py) && Contains(g.notes[k], px, py)
    ensures !Judge(g.notes, px, py).NoTarget? && Judge(g.notes, px, py).index <= j
    ensures var r := CheckHit(g, px, py);
            if |r.notes| < |g.notes| then r.notes[k - 1] == g.notes[k] else r.notes[k] == g.notes[k]
  {
    var jd := Judge(g.notes, px, py);
    if jd.Hit? {
      AwardedUnique(Judgements, LineDistance(g.notes[jd.index]));
    }
  }

  /** Overlap does happen in play: the first four beats of a track session
      (a quarter second apart) are all due on the first frame, so they spawn
      on four consecutive ticks, and notes 0 and 3 share the left lane 27
      pixels apart. Later beats' notes follow them in the list (`rest`, with
      the cursor past them). A click 4 pixels from note 3 and 23 from note 0
      is still judged against note 0, the first in the list: a PERFECT hit,
      3 pixels off the line. All other notes stay, in order. */
  lemma ClosestNoteNotPreferred(rest: seq<Note>, cursor: nat)
    requires 4 + |rest| <= cursor <= |Schedule.AnalyzeBeats().0|
    ensures var n0 := AdvanceBy(NewNote(250, 0), 57);
            var n1 := AdvanceBy(NewNote(400, 1), 56);
            var n2 := AdvanceBy(NewNote(550, 2), 55);
            var n3 := AdvanceBy(NewNote(250, 3), 54);
            var g := Game(Playing, 0, 0, 0, [n0, n1, n2, n3] + rest, Schedule.AnalyzeBeats().0, cursor, 1, 30, 1);
            var r := CheckHit(g, 250, 430);
            && Contains(n0, 250, 430) && Contains(n3, 250, 430)
            && r.notes == [n1, n2, n3] + rest && r.score == 300 + 10 && r.combo == 1
  {
    var n0 := AdvanceBy(NewNote(250, 0), 57);
    var n1 := AdvanceBy(NewNote(400, 1), 56);
    var n2 := AdvanceBy(NewNote(550, 2), 55);
    var n3 := AdvanceBy(NewNote(250, 3), 54);
    AdvanceByPosition(NewNote(250, 0), 57);
    AdvanceByPosition(NewNote(400, 1), 56);
    AdvanceByPosition(NewNote(550, 2), 55);
    AdvanceByPosition(NewNote(250, 3), 54);
    var g := Game(Playing, 0, 0, 0, [n0, n1, n2, n3] + rest, Schedule.AnalyzeBeats().0, cursor, 1, 30, 1);
    assert IsJudged(g.notes, 250, 430, 0);
    assert IsAwarded(Judgements, LineDistance(n0), 0);
    HitScoring(g, 250, 430, 0, 0);
    assert g.notes[..0] + g.notes[1..] == [n1, n2, n3] + rest;
  }
}

=== FILE: notes.dfy ===
/** The falling note entity. */
module Notes {

  import opened Config

  /** A note: its centre `(x, y)` and an index into the colour palette.
      Screen `y` grows downwards. Every note has the same radius,
      `NoteRadius`, which is therefore not stored. */
  datatype Note = Note(x: int, y: int, color: nat)

  /** A freshly created note in lane position `x`, above the screen. */
  function NewNote(x: int, color: nat): (n: Note)
    ensures n.x == x && n.color == color
    ensures n.y == NoteSpawnY && n.y < 0
  {
    Note(x, NoteSpawnY, color)
  }

  /** One tick of falling: the note moves down by the note speed and
      nothing else about it changes. */
  function Advance(n: Note): (m: Note)
    ensures m.y > n.y && m.y - n.y == NoteSpeed
    ensures m.x == n.x && m.color == n.color
  {
    n.(y := n.y + NoteSpeed)
  }

  /** `n` after `k` ticks of falling. */
  function AdvanceBy(n: Note, k: nat): Note {
    if k == 0 then n else Advance(AdvanceBy(n, k - 1))
  }

  /** Whether the point `(px, py)` lies strictly inside the note's circle.
      The Euclidean test `hypot(dx, dy) < radius` is compared on squares,
      which is exact for integer coordinates and a positive radius. */
  predicate Contains(n: Note, px: int, py: int) {
    var dx := px - n.x;
    var dy := py - n.y;
    dx * dx + dy * dy < NoteRadius * NoteRadius
  }

  /** The circle lies within the 80-pixel square around the centre and
      contains the 55-pixel square around it. */
  lemma ContainsBounds(n: Note, px: int, py: int)
    ensures Contains(n, px, py) ==> -NoteRadius < px - n.x < NoteRadius && -NoteRadius < py - n.y < NoteRadius
    ensures -28 < px - n.x < 28 && -28 < py - n.y < 28 ==> Contains(n, px, py)
  {}

  /** Absolute vertical distance from the note's centre to the judgement line. */
  function LineDistance(n: Note): (d: nat)
    ensures d == JudgementLineY - n.y || d == n.y - JudgementLineY
  {
    if n.y >= JudgementLineY then n.y - JudgementLineY else JudgementLineY - n.y
  }

  /** `k` ticks move a note down by exactly `k` times the note speed. */
  lemma {:induction false} AdvanceByPosition(n: Note, k: nat)
    ensures AdvanceBy(n, k) == n.(y := n.y + k * NoteSpeed)
  {
    if k > 0 {
      AdvanceByPosition(n, k - 1);
    }
  }

  /** A spawned note's height is always -60 + 9k, so it is never exactly on
      the judgement line: its closest approach is 3 pixels below it. */
  lemma SpawnedNoteNeverOnLine(x: int, color: nat, k: nat)
    ensures AdvanceBy(NewNote(x, color), k).y != JudgementLineY
    ensures LineDistance(AdvanceBy(NewNote(x, color), k)) >= 3
  {
    AdvanceByPosition(NewNote(x, color), k);
  }

  /** A spawned note is within the PERFECT window (distance below 20) for
      exactly the four ticks 55 to 58 after its creation. */
  lemma PerfectWindow(x: int, color: nat, k: nat)
    ensures LineDistance(AdvanceBy(NewNote(x, color), k)) < 20 <==> 55 <= k <= 58
  {
    AdvanceByPosition(NewNote(x, color), k);
  }

  /** A spawned note stays at or above the miss limit for ticks 0 to 65 and
      is past it from tick 66 on. */
  lemma NoteLifetime(x: int, color: nat, k: nat)
    ensures AdvanceBy(NewNote(x, color), k).y <= MissLimitY() <==> k <= 65
  {
    AdvanceByPosition(NewNote(x, color), k);
  }
}

=== FILE: options.dfy ===
/** An optional value, used where the game's Python code falls through a
    search without finding anything. */
module Options {

  datatype Option<+T> = None | Some(value: T)
}

=== FILE: properties.dfy ===
/** End-to-end scenarios of a demo session. */
module Properties {

  import opened Config
  import opened Notes
  import opened State
  import opened Judging
  import opened Simulation
  import opened Session
  import opened Schedule

  /** A session under way that has scored nothing, started at `t0`. */
  predicate QuietSession(g: Game, t0: int) {
    && (g.phase == Playing || g.phase == GameOver)
    && g.gameStartMs == t0
    && g.score == 0 && g.combo == 0 && g.maxCombo == 0
  }

  predicate NoEvents(frames: seq<FrameInput>) {
    forall i :: 0 <= i < |frames| ==> frames[i].events == []
  }

  /** Frames without events keep a quiet session quiet and leave it over
      once a frame's clock has reached the time limit. */
  lemma QuietFrame(g: Game, t0: int, t: FrameInput)
    requires t0 > 0 && QuietSession(g, t0) && t.events == []
    ensures QuietSession(Frame(g, t), t0)
    ensures t.nowMs - t0 >= GameTimeLimitMs ==> Frame(g, t).phase == GameOver
  {
    assert HandleEvents(g, t.events, t.trackFound, t.nowMs) == g;
  }

  /** A run of event-free frames whose last clock reading is past the limit
      ends on the game-over screen with no score and no combo. */
  lemma {:induction false} QuietRunEnds(g: Game, t0: int, frames: seq<FrameInput>)
    requires t0 > 0 && QuietSession(g, t0) && NoEvents(frames)
    requires |frames| > 0 && frames[|frames| - 1].nowMs - t0 >= GameTimeLimitMs
    ensures QuietSession(Run(g, frames), t0) && Run(g, frames).phase == GameOver
    decreases |frames|
  {
    QuietFrame(g, t0, frames[0]);
    var h := Frame(g, frames[0]);
    if |frames| == 1 {
      assert Run(g, frames) == Run(h, frames[1..]) == h;
    } else {
      assert NoEvents(frames[1..]) by {
        forall i | 0 <= i < |frames[1..]|
          ensures frames[1..][i].events == []
        {
          assert frames[1..][i] == frames[i + 1];
        }
      }
      QuietRunEnds(h, t0, frames[1..]);
    }
  }

  /** Pressing Space on the menu at a recorded time `t0` (in a frame whose
      update and time check run at once) and then never touching anything:
      once a frame's clock passes the session length, the game is over with
      score, combo and best combo all zero. */
  lemma DemoSessionWithoutClicks(g: Game, trackFound: bool, musicBusy: bool, due: bool,
                                 t0: int, frames: seq<FrameInput>)
    requires g.phase == Menu && t0 > 0 && NoEvents(frames)
    requires |frames| > 0 && frames[|frames| - 1].nowMs - t0 >= GameTimeLimitMs
    ensures var start := FrameInput([KeyDown(Space)], trackFound, musicBusy, t0, due);
            var r := Run(g, [start] + frames);
            r.phase == GameOver && r.score == 0 && r.combo == 0 && r.maxCombo == 0
  {
    var start := FrameInput([KeyDown(Space)], trackFound, musicBusy, t0, due);
    var h := Frame(g, start);
    assert QuietSession(h, t0);
    assert ([start] + frames)[1..] == frames;
    QuietRunEnds(h, t0, frames);
  }

  /** The first two beats of the demo are both due on the first frame, so
      the first note spawns one tick before the second; later beats follow,
      and their notes come after these two in the list (`rest`, with the
      cursor past them). When the first note is 57 ticks old it is 3 pixels
      below the line (it can never be exactly on it) and the second, in the
      next lane, is 6 pixels above. Clicking the first note's centre is a
      PERFECT hit worth 300 plus 10 for the first combo, and every other note
      stays in order. */
  lemma PerfectFirstHit(t0: int, rest: seq<Note>, cursor: nat)
    requires 2 + |rest| <= cursor <= |DemoBeats()|
    ensures var n0 := AdvanceBy(NewNote(LaneX(0), 0), 57);
            var n1 := AdvanceBy(NewNote(LaneX(1), 1), 56);
            var g := StartGame(Initial(), false, t0).(notes := [n0, n1] + rest, beatIdx := cursor);
            var r := CheckHit(g, n0.x, n0.y);
            && n0.y == JudgementLineY + 3 && n1.y == JudgementLineY - 6
            && r.score == 310 && r.combo == 1 && r.maxCombo == 1 && r.notes == [n1] + rest
  {
    var n0 := AdvanceBy(NewNote(LaneX(0), 0), 57);
    var n1 := AdvanceBy(NewNote(LaneX(1), 1), 56);
    AdvanceByPosition(NewNote(LaneX(0), 0), 57);
    AdvanceByPosition(NewNote(LaneX(1), 1), 56);
    var g := StartGame(Initial(), false, t0).(notes := [n0, n1] + rest, beatIdx := cursor);
    assert IsJudged(g.notes, n0.x, n0.y, 0);
    assert IsAwarded(Judgements, LineDistance(n0), 0);
    HitScoring(g, n0.x, n0.y, 0, 0);
    assert g.notes[..0] + g.notes[1..] == [n1] + rest;
  }
}

=== FILE: schedule.dfy ===
/** The beat schedules that drive note spawning: a list of arrival times in
    seconds from the start of the session. */
module Schedule {

  import opened Config

  predicate StrictlyIncreasing(s: seq<real>) {
    forall i, j :: 0 <= i < j < |s| ==> s[i] < s[j]
  }

  /** `count` beats at a fixed `interval`, the first at time 0. */
  function Beats(count: nat, interval: real): (s: seq<real>)
    ensures |s| == count
    ensures forall i :: 0 <= i < count ==> s[i] == i as real * interval
  {
    seq(count, i => i as real * interval)
  }

  /** A schedule with a positive interval is strictly increasing. */
  lemma BeatsIncreasing(count: nat, interval: real)
    requires interval > 0.0
    ensures StrictlyIncreasing(Beats(count, interval))
  {}

  /** The demo schedule: a beat every half second for the whole session. */
  function DemoBeats(): (s: seq<real>)
    ensures |s| == 2 * GameTimeLimitSec == 60
    ensures s[0] == 0.0
    ensures forall i :: 0 <= i < |s| ==> s[i] == i as real * 0.5
    ensures StrictlyIncreasing(s)
  {
    BeatsIncreasing(GameTimeLimitSec * 2, 0.5);
    Beats(GameTimeLimitSec * 2, 0.5)
  }

  /** The stand-in beat analysis used when a track is played: 240 beats per
      minute for the session length, returned with that duration. The beat
      count is the whole part of the duration divided by the interval. */
  function AnalyzeBeats(): (r: (seq<real>, int))
    ensures |r.0| == 120 && r.1 == GameTimeLimitSec
    ensures r.0[0] == 0.0
    ensures forall i :: 0 <= i < |r.0| ==> r.0[i] == i as real * 0.25
    ensures StrictlyIncreasing(r.0)
  {
    var bpm := 240;
    var duration := GameTimeLimitSec;
    var interval := 60.0 / bpm as real;
    assert interval == 0.25;
    assert duration as real / interval == 120.0;
    var count := (duration as real / interval).Floor;
    BeatsIncreasing(count, interval);
    (Beats(count, interval), duration)
  }
}

=== FILE: session.dfy ===
/** The session controller: keyboard and mouse events, starting a session,
    and one frame of the main loop. */
module Session {

  import opened State
  import opened Schedule
  import opened Judging
  import opened Timing
  import opened Simulation

  datatype Key = Space | KeyM | Escape | OtherKey

  /** Input events. Quitting (the window's close event or Escape) only stops
      the main loop and is not modelled: such events leave the game as it is. */
  datatype Event = KeyDown(key: Key) | MouseDown(x: int, y: int) | Quit | OtherEvent

  /** Starts a session: clears the statistics, installs the schedule (the
      analysed beats and their duration when a track is played, the demo
      beats otherwise), records `nowMs` as both start times, and goes to the
      playing screen. Loading and playing the track are not modelled. */
  function StartGame(g: Game, withTrack: bool, nowMs: int): (r: Game)
    ensures r.phase == Playing && Valid(r)
    ensures r.score == 0 && r.combo == 0 && r.maxCombo == 0
    ensures r.notes == [] && r.beatIdx == 0
    ensures r.musicStartMs == nowMs && r.gameStartMs == nowMs
    ensures withTrack ==> r.beatTimes == AnalyzeBeats().0 && |r.beatTimes| == 120 && r.musicDurationSec == 30
    ensures !withTrack ==> r.beatTimes == DemoBeats() && |r.beatTimes| == 60 && r.musicDurationSec == 0
  {
    var s := ResetStats(g);
    var s' := if withTrack then s.(beatTimes := AnalyzeBeats().0, musicDurationSec := AnalyzeBeats().1)
              else s.(beatTimes := DemoBeats());
    s'.(musicStartMs := nowMs, gameStartMs := nowMs, phase := Playing)
  }

  /** Handles one event. `trackFound` says whether a playable track exists
      for the M key. Space starts a demo session from the menu and returns to
      the menu from the game-over screen; M starts a session with a track
      when one exists; clicks are judged only while playing; every other
      event changes nothing. */
  function HandleEvent(g: Game, ev: Event, trackFound: bool, nowMs: int): (r: Game)
    ensures g.phase == Menu && ev == KeyDown(Space) ==> r == StartGame(g, false, nowMs)
    ensures g.phase == Menu && ev == KeyDown(KeyM) ==> r == if trackFound then StartGame(g, true, nowMs) else g
    ensures g.phase == GameOver && ev == KeyDown(Space) ==> r == g.(phase := Menu)
    ensures g.phase == Playing && ev.MouseDown? ==> r == CheckHit(g, ev.x, ev.y)
    ensures g.phase != Playing && ev.MouseDown? ==> r == g
    ensures g.phase == Playing && ev.KeyDown? ==> r == g
    ensures g.phase == GameOver && ev.KeyDown? && ev.key != Space ==> r == g
    ensures ev.KeyDown? && ev.key != Space && ev.key != KeyM ==> r == g
    ensures ev.Quit? || ev.OtherEvent? ==> r == g
    ensures r.phase == g.phase || (g.phase == Menu && r.phase == Playing) || (g.phase == GameOver && r.phase == Menu)
    ensures r.score < g.score ==> g.phase == Menu && r.phase == Playing && r.score == 0
  {
    match g.phase
    case Menu =>
      if ev == KeyDown(Space) then StartGame(g, false, nowMs)
      else if ev == KeyDown(KeyM) && trackFound then StartGame(g, true, nowMs)
      else g
    case Playing =>
      if ev.MouseDown? then CheckHit(g, ev.x, ev.y) else g
    case GameOver =>
      if ev == KeyDown(Space) then g.(phase := Menu) else g
  }

  /** Handles the events of one frame in order. */
  function HandleEvents(g: Game, evs: seq<Event>, trackFound: bool, nowMs: int): (r: Game)
    ensures Valid(g) ==> Valid(r)
    ensures (forall i :: 0 <= i < |evs| ==> !evs[i].KeyDown?) ==>
              r.score >= g.score && r.phase == g.phase && r.gameStartMs == g.gameStartMs
    ensures g.phase == Playing ==> r.phase == Playing && r.gameStartMs == g.gameStartMs
    ensures g.phase == Playing ==> r.score >= g.score && r.maxCombo >= g.maxCombo
    ensures g.phase != Playing && (forall i :: 0 <= i < |evs| ==> !evs[i].KeyDown?) ==> r == g
    decreases |evs|
  {
    if |evs| == 0 then g
    else
      HandleEvents(HandleEvent(g, evs[0], trackFound, nowMs), evs[1..], trackFound, nowMs)
  }

  /** What the outside world supplies to one frame: the events, whether a
      track file exists, whether the track is still playing, the clock, and
      whether the next beat is due to spawn. */
  datatype FrameInput = FrameInput(
    events: seq<Event>, trackFound: bool, musicBusy: bool, nowMs: int, beatDue: bool)

  /** One frame of the main loop: handle events, then, on the playing
      screen, update and check the time limit. Drawing is not modelled. */
  function Frame(g: Game, t: FrameInput): (r: Game)
    ensures Valid(g) ==> Valid(r)
    ensures (forall i :: 0 <= i < |t.events| ==> !t.events[i].KeyDown?) ==> r.score >= g.score
    ensures g.phase == Playing ==> r.score >= g.score && r.maxCombo >= g.maxCombo
    ensures g.phase == Playing && TimedOut(g, t.nowMs) ==> r.phase == GameOver
    ensures g.phase == Playing && !TimedOut(g, t.nowMs) ==> r.phase == Playing
    ensures g.phase != Playing && (forall i :: 0 <= i < |t.events| ==> !t.events[i].KeyDown?) ==> r == g
  {
    var h := HandleEvents(g, t.events, t.trackFound, t.nowMs);
    if h.phase == Playing then
      CheckTimeLimit(Update(h, t.musicBusy, t.nowMs, t.beatDue), t.nowMs)
    else h
  }

  /** A run of frames of the main loop. Every state it reaches from a valid
      state is valid: the best combo bounds the combo and the schedule cursor
      stays inside the schedule. */
  function Run(g: Game, frames: seq<FrameInput>): (r: Game)
    ensures Valid(g) ==> Valid(r)
    decreases |frames|
  {
    if |frames| == 0 then g else Run(Frame(g, frames[0]), frames[1..])
  }
}

=== FILE: simulation.dfy ===
/** One tick of the playing screen: spawn from the schedule, let every note
    fall, and sweep away the notes that passed the worst tier. */
module Simulation {

  import opened Config
  import opened Notes
  import opened State
  import opened Timing

  /** The lane of the `idx`-th beat: left, centre and right in turn. */
  function LaneX(idx: nat): (x: int)
    ensures x == 250 + LaneSpacing * (idx % 3)
    ensures x == 250 || x == 400 || x == 550
  {
    ScreenWidth / 2 + (idx % 3 - 1) * LaneSpacing
  }

  /** Spawns the note for the next beat when it is due (the timing test is
      the input `due`) and the schedule is not exhausted. */
  function Spawn(g: Game, due: bool): (r: Game)
    ensures |r.notes| == |g.notes| + 1 <==> due && g.beatIdx < |g.beatTimes|
    ensures |r.notes| == |g.notes| + 1 || r == g
    ensures r.notes[..|g.notes|] == g.notes
    ensures |r.notes| == |g.notes| + 1 ==>
              var n := r.notes[|g.notes|];
              && n.y == NoteSpawnY
              && n.x == LaneX(g.beatIdx)
              && n.color == g.beatIdx % NoteColorCount && n.color < NoteColorCount
              && r.beatIdx == g.beatIdx + 1
    ensures r == g.(notes := r.notes, beatIdx := r.beatIdx)
    ensures g.beatIdx <= |g.beatTimes| ==> r.beatIdx <= |r.beatTimes|
  {
    if g.beatIdx < |g.beatTimes| && due then
      var idx := g.beatIdx;
      g.(notes := g.notes + [NewNote(LaneX(idx), idx % NoteColorCount)],
         beatIdx := idx + 1)
    else g
  }

  /** Every note after one tick of falling. */
  function AdvanceAll(notes: seq<Note>): (r: seq<Note>)
    ensures |r| == |notes|
    ensures forall i :: 0 <= i < |notes| ==> r[i] == Advance(notes[i])
  {
    seq(|notes|, i requires 0 <= i < |notes| => Advance(notes[i]))
  }

  /** A note still in play: not below the worst tier's reach. */
  predicate OnTime(n: Note) {
    n.y <= MissLimitY()
  }

  /** The notes still in play, in their original order. */
  function KeepOnTime(s: seq<Note>): (r: seq<Note>)
    ensures |r| <= |s|
    ensures forall n :: n in r ==> n in s && OnTime(n)
    ensures forall i :: 0 <= i < |s| && OnTime(s[i]) ==> s[i] in r
    ensures |r| == |s| <==> forall i :: 0 <= i < |s| ==> OnTime(s[i])
  {
    if |s| == 0 then []
    else if OnTime(s[0]) then [s[0]] + KeepOnTime(s[1..])
    else KeepOnTime(s[1..])
  }

  /** Filtering commutes with concatenation, so kept notes keep their order. */
  lemma {:induction false} KeepOnTimeAppend(a: seq<Note>, b: seq<Note>)
    ensures KeepOnTime(a + b) == KeepOnTime(a) + KeepOnTime(b)
  {
    if |a| == 0 {
      assert a + b == b;
    } else {
      assert (a + b)[0] == a[0];
      assert (a + b)[1..] == a[1..] + b;
      KeepOnTimeAppend(a[1..], b);
    }
  }

  /** Moves every note down one tick, drops those now past the miss limit,
      and resets the combo once if anything was dropped. */
  function Sweep(g: Game): (r: Game)
    ensures |r.notes| <= |g.notes|
    ensures r.notes == KeepOnTime(AdvanceAll(g.notes))
    ensures forall i :: 0 <= i < |g.notes| && OnTime(Advance(g.notes[i])) ==> Advance(g.notes[i]) in r.notes
    ensures forall n :: n in r.notes ==> OnTime(n)
    ensures r.combo == (if |r.notes| < |g.notes| then 0 else g.combo)
    ensures r == g.(notes := r.notes, combo := r.combo)
  {
    var moved := AdvanceAll(g.notes);
    var missed := exists i :: 0 <= i < |moved| && !OnTime(moved[i]);
    g.(combo := if missed then 0 else g.combo, notes := KeepOnTime(moved))
  }

  /** One playing tick. When a start time is recorded, no music is playing
      (`musicBusy` is false, always so in a demo session) and no time is
      left, the session ends on the spot; otherwise the spawn and the sweep run. Score and best combo never
      change; the combo only ever drops to zero. */
  function Update(g: Game, musicBusy: bool, nowMs: int, due: bool): (r: Game)
    ensures g.musicStartMs > 0 && !musicBusy && TimedOut(g, nowMs) ==> r == g.(phase := GameOver)
    ensures !(g.musicStartMs > 0 && !musicBusy && TimedOut(g, nowMs)) ==>
              r == Sweep(Spawn(g, due)) && r.phase == g.phase
    ensures r.score == g.score && r.maxCombo == g.maxCombo
    ensures r.combo == g.combo || r.combo == 0
    ensures r.gameStartMs == g.gameStartMs && r.beatTimes == g.beatTimes
    ensures Valid(g) ==> Valid(r)
  {
    if g.musicStartMs > 0 && !musicBusy && RemainingMs(g, nowMs) <= 0 then
      g.(phase := GameOver)
    else
      Sweep(Spawn(g, due))
  }
}

=== FILE: state.dfy ===
/** The game's mutable state, as an immutable record that every operation
    maps to a new record. */
module State {

  import opened Notes

  /** The three screens of a session. */
  datatype Phase = Menu | Playing | GameOver

  /** Everything the game object keeps between frames. Times are integer
      milliseconds of the game clock; beat times are seconds. */
  datatype Game = Game(
    phase: Phase,
    score: nat,
    combo: nat,
    maxCombo: nat,
    notes: seq<Note>,
    beatTimes: seq<real>,
    beatIdx: nat,
    musicStartMs: int,
    musicDurationSec: int,
    gameStartMs: int)

  /** The statistics of a session that has not started yet: no score, no
      combo, no notes, no schedule and no recorded start times. */
  predicate Cleared(g: Game) {
    && g.score == 0 && g.combo == 0 && g.maxCombo == 0
    && g.notes == [] && g.beatTimes == [] && g.beatIdx == 0
    && g.musicStartMs == 0 && g.musicDurationSec == 0 && g.gameStartMs == 0
  }

  /** The invariant every reachable state keeps: the best combo bounds the
      current one, and the schedule cursor stays within the schedule. */
  predicate Valid(g: Game) {
    g.maxCombo >= g.combo && g.beatIdx <= |g.beatTimes|
  }

  function Max(a: nat, b: nat): (m: nat)
    ensures m >= a && m >= b && (m == a || m == b)
  {
    if a >= b then a else b
  }

  /** Clears every statistic and leaves the screen as it is. */
  function ResetStats(g: Game): (r: Game)
    ensures Cleared(r) && Valid(r)
    ensures r.phase == g.phase
  {
    g.(score := 0, combo := 0, maxCombo := 0,
       notes := [], beatTimes := [], beatIdx := 0,
       musicStartMs := 0, musicDurationSec := 0, gameStartMs := 0)
  }

  /** The state of a freshly constructed game: the menu, with cleared stats. */
  function Initial(): (g: Game)
    ensures g.phase == Menu && Cleared(g) && Valid(g)
  {
    ResetStats(Game(Menu, 0, 0, 0, [], [], 0, 0, 0, 0))
  }
}

=== FILE: timing.dfy ===
/** The session clock: remaining time and the time limit. The current time
    is an input in integer milliseconds. */
module Timing {

  import opened Config
  import opened State

  /** The session has run its full length: it has a recorded start time
      (zero means none) and at least the limit has elapsed since then. */
  predicate TimedOut(g: Game, nowMs: int) {
    g.gameStartMs > 0 && nowMs - g.gameStartMs >= GameTimeLimitMs
  }

  /** Time left in the session, in milliseconds, never below zero; the full
      limit while no start time is recorded. */
  function RemainingMs(g: Game, nowMs: int): (r: int)
    ensures r >= 0
    ensures g.gameStartMs <= 0 ==> r == GameTimeLimitMs
    ensures g.gameStartMs > 0 && nowMs >= g.gameStartMs ==> r <= GameTimeLimitMs
    ensures g.gameStartMs > 0 && !TimedOut(g, nowMs) ==> r + (nowMs - g.gameStartMs) == GameTimeLimitMs
    ensures r == 0 <==> TimedOut(g, nowMs)
  {
    if g.gameStartMs > 0 then
      var left := GameTimeLimitMs - (nowMs - g.gameStartMs);
      if left > 0 then left else 0
    else GameTimeLimitMs
  }

  /** Ends the session once it has run its full length; nothing but the
      screen changes. */
  function CheckTimeLimit(g: Game, nowMs: int): (r: Game)
    ensures r.phase == (if TimedOut(g, nowMs) then GameOver else g.phase)
    ensures r == g.(phase := r.phase)
  {
    if g.gameStartMs > 0 && nowMs - g.gameStartMs >= GameTimeLimitMs then
      g.(phase := GameOver)
    else g
  }
}
